=== FILE: README.md ===
# Copay autofill, modelled in Dafny

`nextgen-copay-autofill.user.js` is a userscript for the NextGen practice
management web application. On an eligibility page it downloads the payer's
eligibility PDF and reads its text. From that text it picks the primary-care
copay, and then it walks the browser through four page loads to write that
copay into the patient's insurance editor. The workflow survives page reloads
because its state is kept in the userscript key-value store (`GM_getValue` /
`GM_setValue`). On each page load `autoResumeWorkflow` runs whichever step the
stored state names.

This project models the decision logic of that script and proves properties of
the model:

- `pdf.dfy` (`Pdf`): the `%PDF-` signature test and the retry loop of
  `fetchPdfTextRobust`. The outcome of each download attempt is an input.
- `text.dfy` (`Text`): character classes, maximal runs, ASCII upper-casing,
  substring search and `trim`.
- `whitespace.dfy` (`Whitespace`): the normalisation `replace(/\s+/g, ' ')`,
  `replace(/\n/g, ' ')`, `trim()`. It also defines a reference reading of the
  result: the text's words joined by single spaces.
- `scanner.dfy` (`Scanner`): the global pattern
  `/([^[\]]+)\[([^\]]+)\]:\$?([\d,]+(?:\.\d{2})?)/g` and the `exec` loop.
  `Parses` says which cuts of the text the pattern can match. `Greedy` says
  which cut a backtracking matcher reports. `MatchAt` computes that cut.
- `amount.dfy` (`Amount`): comma removal, `parseFloat` on the captured amount,
  and `toFixed(2)`. Values are kept as whole hundredths.
- `extract.dfy` (`Extract`): `extractCopayInfo`. It normalises, collects one
  record per match, keeps the primary-care lines, scores their details and
  chooses the first best. It prints that candidate's amount, or null when the
  amount is zero or NaN.
- `workflow.dfy` (`Workflow`): the state store, the four steps and
  `autoResumeWorkflow`. A step's page is an input: whether the eligibility text
  could be obtained, whether each awaited element was found before its wait
  timed out, and whether the details link and the save button were found
  (or the page function that replaces them exists).

The model follows the script as written. The script scores a line 10 for
PREFERRED, otherwise 5 for PARTICIPATING, plus 5 for PRIMARY CARE. It puts no
cap on amounts, treats no other kind of line specially, and always returns a
null coinsurance.

The script's behaviour at the edges, as modelled:

- An amount of `0`, such as `$0.00`, is falsy in `copay ? copay.toFixed(2) : null`.
  Such a copay is therefore reported as "no copay found".
- A captured amount made only of commas, such as `:$,,`, parses to NaN and
  also gives null.
- `replace(/\n/g, ' ')` never changes anything, because `\s+` has already
  turned every newline into a space. `NoNewlineUnchanged` and
  `NormalizeIsJoinedWords` make this precise.

## Model

| member | source | states |
|---|---|---|
| `Pdf.IsPdfBytes` | nextgen-copay-autofill.user.js:145-148 | true exactly when there are at least five bytes and the first five are `%PDF-` (25 50 44 46 2D) |
| `Pdf.HeadDecides` | nextgen-copay-autofill.user.js:156-158 | testing only `buf.slice(0, 5)` gives the same verdict as testing the whole buffer, and bytes appended after a valid header keep it valid |
| `Pdf.FetchPdfTextRobust` | nextgen-copay-autofill.user.js:150-182 | text is returned exactly when one of the first `attempts` tries succeeds; it is the text of the first such try; `tries` counts the tries made; there is a sleep between tries but none after the last; when every try fails, all `attempts` are used and nothing is returned |
| `Text.TrimIsSlice` | nextgen-copay-autofill.user.js:235-236 | `trim()` returns a contiguous slice of its input; only whitespace lies outside the slice, and the slice does not start or end with whitespace |
| `Text.TrimTrimmedFrom` | nextgen-copay-autofill.user.js:235-236 | `trim()` removes exactly the surrounding whitespace of its input |
| `Text.TrimmedFromUnique` | nextgen-copay-autofill.user.js:235-236 | a string is the input with its surrounding whitespace removed only if it is the `trim()` of that input |
| `Whitespace.CollapseShape` | nextgen-copay-autofill.user.js:224 | `replace(/\s+/g, ' ')` yields the words of the text joined by single spaces, with at most one space before and one space after |
| `Whitespace.NoNewlineUnchanged` | nextgen-copay-autofill.user.js:225 | replacing newlines in a string that has none leaves it unchanged |
| `Whitespace.NormalizeIsJoinedWords` | nextgen-copay-autofill.user.js:223-226 | the normalised text equals the text's words joined by single spaces; it has no whitespace at either end, and every whitespace character in it is a single space before a word |
| `Whitespace.WordsOfJoin` | nextgen-copay-autofill.user.js:223-226 | splitting words joined by single spaces gives the same words back, which is the inverse of the normal form |
| `Whitespace.NormalizeIdempotent` | nextgen-copay-autofill.user.js:223-226 | normalising an already normalised text changes nothing |
| `Scanner.MatchAt` | nextgen-copay-autofill.user.js:230 | the match anchored at a position is a legal cut for the pattern, and it is the greedy one: the digit-and-comma run is maximal and a two-digit fraction is taken whenever one follows |
| `Scanner.MatchAtComplete` | nextgen-copay-autofill.user.js:230 | wherever the pattern can match from a position, the anchored matcher reports a match there; a greedy cut is exactly the match it reports |
| `Scanner.Exec` | nextgen-copay-autofill.user.js:234 | `exec` from `lastIndex` returns the leftmost greedy match that starts at or after it; null means no cut of the pattern starts at or after it |
| `Scanner.ScanFromOrdered` | nextgen-copay-autofill.user.js:234-244 | the `exec` loop yields greedy matches in text order; the matches do not overlap and none is empty |
| `Scanner.ScanFromComplete` | nextgen-copay-autofill.user.js:234-244 | every place where the pattern could start a match lies inside one of the reported matches |
| `Amount.RemoveCommasOfRun` | nextgen-copay-autofill.user.js:237 | removing commas from a digit-and-comma run leaves only digits, one fewer for each comma |
| `Amount.ParseAmountWhole` | nextgen-copay-autofill.user.js:237-242 | `parseFloat` reads a whole number of dollars as that many hundreds of hundredths, the same value as with `.00` appended |
| `Amount.ParseAmountLeadingZero` | nextgen-copay-autofill.user.js:237-242 | `parseFloat` ignores a leading zero, on a whole number and on a bare `.dd` fraction alike |
| `Amount.DecimalRoundTrip` | nextgen-copay-autofill.user.js:242 | reading back the decimal numeral of a number gives that number |
| `Amount.FixedRoundTrip` | nextgen-copay-autofill.user.js:279 | `toFixed(2)` prints an integer part without leading zeros, a point and exactly two digits, and `parseFloat` reads back the printed value |
| `Amount.FixedUnique` | nextgen-copay-autofill.user.js:279 | every text of that printed shape is exactly what `toFixed(2)` prints for the value it parses to, so shape and value together fix the text |
| `Extract.AmountTextShape` | nextgen-copay-autofill.user.js:237 | group 3 with its commas removed is digits followed by an optional `.dd`, which is what `parseFloat` is given |
| `Extract.Record` | nextgen-copay-autofill.user.js:235-243 | the pushed record holds the service and the details with their surrounding whitespace removed, and the `parseFloat` value of the amount without commas; the service has no bracket and the details have no `]` |
| `Extract.ToCandidate` | nextgen-copay-autofill.user.js:234-243 | the record of a greedy match holds groups 1 and 2 of that match with their surrounding whitespace removed, and the value of group 3; it is well formed |
| `Extract.AllMatchesShape` | nextgen-copay-autofill.user.js:232-244 | `allMatches` holds one well-formed record per match of the normalised text, in text order |
| `Extract.Score` | nextgen-copay-autofill.user.js:258-265 | a details score is always one of 0, 5, 10 or 15 |
| `Extract.ScoreMeaning` | nextgen-copay-autofill.user.js:258-265 | a score is at least 10 exactly when the details mention PREFERRED, or PARTICIPATING together with PRIMARY CARE; it is 0 exactly when none of the three words appears; PREFERRED outranks details that mention neither PREFERRED nor PRIMARY CARE; when the other words agree, PRIMARY CARE adds 5 on top of the tier, PREFERRED scores 5 above PARTICIPATING, and PARTICIPATING 5 above neither |
| `Extract.FirstBestUnique` | nextgen-copay-autofill.user.js:267-271 | at most one candidate is the first primary-care candidate with the highest score |
| `Extract.SelectFrom` | nextgen-copay-autofill.user.js:251-273 | the loop that replaces the winner on a higher score, or on a tie while no winner is held, ends with no winner only if nothing qualified; otherwise the winner is the first best |
| `Extract.Select` | nextgen-copay-autofill.user.js:246-273 | there is no winner exactly when no candidate's service names a primary-care wording; otherwise the winner is the first primary-care candidate with the highest score |
| `Extract.FormatCopay` | nextgen-copay-autofill.user.js:279 | the copay is printed exactly when the amount is a positive number; the printed text has the `toFixed(2)` shape (no leading zeros, two decimals) and parses back to the amount |
| `Extract.CopayOf` | nextgen-copay-autofill.user.js:246-279 | the copay is null when nothing qualifies; otherwise it is present exactly when the first best amount is positive, and then it has the `toFixed(2)` shape and parses back to that amount |
| `Extract.ExtractCopayInfo` | nextgen-copay-autofill.user.js:221-283 | coinsurance is always null, and a returned copay has the `toFixed(2)` shape: digits without leading zeros, a point, two digits |
| `Extract.ExtractChoosesFirstBest` | nextgen-copay-autofill.user.js:221-283 | the returned matches are those of the normalised text, and the returned copay is the first best primary-care amount among them, null when there is none or when it is zero or NaN, and otherwise printed in the `toFixed(2)` shape |
| `Workflow.KeysDistinct` | nextgen-copay-autofill.user.js:66-69 | the state, copay and coinsurance keys are three different strings |
| `Workflow.StoreLaws` | nextgen-copay-autofill.user.js:75-86 | each getter reads back its setter's value and each setter leaves the other two values alone; `clearState` resets exactly the three workflow keys to idle, null and null |
| `Workflow.SaveReads` | nextgen-copay-autofill.user.js:322-324 | the values step 1 saves read back, and a later `clearState` forgets them completely |
| `Workflow.Step1` | nextgen-copay-autofill.user.js:288-340 | step 1 advances exactly when the PDF text was obtained, a copay was extracted and the details link was there; it then stores that copay, a null coinsurance and `navigate_to_details`; on any failure the store is cleared |
| `Workflow.Dispatch` | nextgen-copay-autofill.user.js:456-475 | each of the three active states selects exactly its own step, and any other state selects none |
| `Workflow.ResumeSteps` | nextgen-copay-autofill.user.js:456-482 | a resume does nothing exactly when the state is not active; a successful step moves the state one place along the chain and keeps copay and coinsurance; a failure clears the store, and an active state never yields "no action", so a step that neither advances nor fills has failed; steps 2 and 3 advance exactly when their element is found; `fill_copay` never advances, fills exactly when a non-empty copay is stored and the field and save button are found, aborts with the store cleared when no copay is stored, and after a fill clears the store unless the save reloaded the page first |
| `Workflow.ResumeIgnoresInactive` | nextgen-copay-autofill.user.js:459-462 | an idle, empty, null or unknown state leaves the store untouched |
| `Workflow.Step1Consistent` | nextgen-copay-autofill.user.js:316-324 | after step 1 the workflow is active only if a non-empty copay is stored |
| `Workflow.ResumeConsistent` | nextgen-copay-autofill.user.js:345-451 | resuming preserves the property that an active state has a non-empty stored copay |
| `Workflow.FillCompletes` | nextgen-copay-autofill.user.js:391-451 | in a consistent store, `fill_copay` with the field and save button present completes with the stored copay and clears the store, unless the save reloaded the page before the clear |
| `Workflow.ReloadedFillRepeats` | nextgen-copay-autofill.user.js:412-444 | a save that reloads the page during the pause before the clear leaves the store as it was, so the next load fills the same copay again |
| `Workflow.ResumeChain` | nextgen-copay-autofill.user.js:345-482 | once step 1 has stored a non-empty copay and `navigate_to_details`, three resumes on pages where everything is found advance twice, then fill exactly that copay and leave the store cleared, or unchanged when the save reloaded the page first |
| `Workflow.HappyPath` | nextgen-copay-autofill.user.js:288-482 | step 1 followed by three resumes on pages where everything is found fills exactly the extracted copay and leaves the store cleared, or at `fill_copay` when the save reloaded the page first |

## Left out

- Everything in the repository besides `nextgen-copay-autofill.user.js` is not
  part of this model. That includes the other NextGen scripts and the
  `.meta.js` header.
- DOM work is not modelled: the button, `waitForElement`, `syntheticClick`,
  the URL extraction from the link's `onclick`, and `cacheBust`. A page is
  reduced to whether each element or page function a step needs was found.
- I/O is not modelled: `GM_xmlhttpRequest`, the timeout race, pdf.js page
  text extraction, `sleep`, console output and `alert`. Each fetch attempt's
  outcome is an input.
- Pdf.FetchPdfTextRobust: the delay values (`initialDelayMs`, `backoff`,
  `Math.floor`) and the per-try timeout are not modelled. The method counts
  sleeps, not their lengths.
- Pdf.IsPdfBytes: the `u8 &&` test for a missing buffer has no counterpart,
  because a Dafny sequence is never null.
- `startCopayWorkflow` and the script's start-up code are not modelled: the
  button handler, and the timers that call `autoResumeWorkflow`.
- The outer `try`/`catch` of `autoResumeWorkflow` is not modelled. Each step
  catches its own errors, so that handler cannot run.
- Whitespace and case are ASCII only. `\s`, `trim()` and `toUpperCase()`
  apply to the ASCII characters. The Unicode spaces and the non-ASCII case
  mappings that JavaScript also uses are not modelled.
- Amount.ParseAmount: only strings of the captured shape are parsed (digits,
  then optionally `.` and two digits), because that is all the pattern lets
  through.
- Amount.ParseAmount and Amount.ToFixed2: floating point is not modelled.
  Amounts are exact hundredths, so three things are missing. First, a
  two-decimal value no longer prints back as read from about 2^46 dollars
  (about 7·10^13) upwards; for example `107714215717282.90` prints
  `107714215717282.91`. Second, `toFixed` uses the exponential form from
  1e21 upwards. Third, an amount of about 1.8·10^308 or more, which needs an
  integer part of 309 digits or more, parses to `Infinity`. That value is
  truthy, so the script returns the copay `"Infinity"`.
- Workflow.Step4: a reload caused by the save is modelled only as the page
  input `saveReloads`. It means the page reloaded during the one-second pause
  after `insurance_save()`, before `clearState()` ran. Whether and when a save
  reloads the page is up to the host application, so it is an input.
- Step2, Step3 and Step4 carry no contracts of their own. Their behaviour is
  stated through `Resume` in `Workflow.ResumeSteps`, `Workflow.FillCompletes`
  and `Workflow.ReloadedFillRepeats`. Together these cover every branch:
  advance, each failure and the fill.
- The patient-chart navigation after a save is not modelled, because it does
  not touch the store.

=== FILE: amount.dfy ===
/**
  The money values of the extractor. The pattern captures a run of digits
  and commas with an optional two-digit fraction; the commas are removed,
  the rest goes through `parseFloat`, and the winner is printed with
  `toFixed(2)`. Values are kept as whole hundredths, which both steps
  represent exactly for such strings.
*/
module Amount {
  import opened Text

  /** A `parseFloat` result: not a number, or a value counted in hundredths. */
  datatype Number = NaN | Cents(hundredths: nat)

  /** `replace(/,/g, '')`. */
  function RemoveCommas(s: string): string
    decreases |s|
  {
    if s == [] then [] else (if s[0] == ',' then [] else [s[0]]) + RemoveCommas(s[1..])
  }

  lemma {:induction false} RemoveCommasAppend(a: string, b: string)
    ensures RemoveCommas(a + b) == RemoveCommas(a) + RemoveCommas(b)
    decreases |a|
  {
    if a != [] {
      assert (a + b)[1..] == a[1..] + b;
      RemoveCommasAppend(a[1..], b);
    } else {
      assert a + b == b;
    }
  }

  /** Removing the commas from a run of digits and commas leaves only digits, and no comma at all. */
  lemma {:induction false} RemoveCommasOfRun(s: string)
    requires forall i :: 0 <= i < |s| ==> IsDigit(s[i]) || s[i] == ','
    ensures AllDigits(RemoveCommas(s))
    ensures |RemoveCommas(s)| == |s| - CommaCount(s)
    decreases |s|
  {
    if s != [] {
      RemoveCommasOfRun(s[1..]);
    }
  }

  function CommaCount(s: string): nat
    decreases |s|
  {
    if s == [] then 0 else (if s[0] == ',' then 1 else 0) + CommaCount(s[1..])
  }

  /** Removing commas from a string that has none changes nothing. */
  lemma {:induction false} RemoveCommasNone(s: string)
    requires forall i :: 0 <= i < |s| ==> s[i] != ','
    ensures RemoveCommas(s) == s
    decreases |s|
  {
    if s != [] {
      RemoveCommasNone(s[1..]);
      assert s == [s[0]] + s[1..];
    }
  }

  /** The shape of a captured amount once its commas are gone: digits, then optionally `.` and two digits. */
  predicate AmountShape(t: string) {
    var n := RunEnd(t, 0, IsDigit);
    n == |t| || (n + 3 == |t| && t[n] == '.' && IsDigit(t[n + 1]) && IsDigit(t[n + 2]))
  }

  /** The value of a string of decimal digits (0 for the empty string). */
  function DecimalValue(ds: string): nat
    requires AllDigits(ds)
    decreases |ds|
  {
    if ds == [] then 0 else DecimalValue(ds[..|ds| - 1]) * 10 + DigitValue(ds[|ds| - 1])
  }

  /** The shortest decimal numeral of `n`. */
  function NatToDecimal(n: nat): (ds: string)
    ensures ds != [] && AllDigits(ds)
    ensures |ds| == 1 || ds[0] != '0'
  {
    if n < 10 then [DigitChar(n)] else NatToDecimal(n / 10) + [DigitChar(n % 10)]
  }

  /** Reading a numeral back gives the number. */
  lemma {:induction false} DecimalRoundTrip(n: nat)
    ensures DecimalValue(NatToDecimal(n)) == n
  {
    if n >= 10 {
      var ds := NatToDecimal(n);
      assert ds[..|ds| - 1] == NatToDecimal(n / 10);
      DecimalRoundTrip(n / 10);
    }
  }

  /**
    `parseFloat` on an amount of the captured shape: the empty string is NaN,
    a missing integer part reads as zero (`.50` is a half).
  */
  function ParseAmount(t: string): Number
    requires AmountShape(t)
  {
    var n := RunEnd(t, 0, IsDigit);
    var whole := DecimalValue(t[..n]);
    if n == |t| then
      if n == 0 then NaN else Cents(whole * 100)
    else
      Cents(whole * 100 + DigitValue(t[n + 1]) * 10 + DigitValue(t[n + 2]))
  }

  /** A leading zero does not change the value of a numeral. */
  lemma {:induction false} LeadingZeroValue(ds: string)
    requires AllDigits(ds)
    ensures AllDigits("0" + ds) && DecimalValue("0" + ds) == DecimalValue(ds)
  {
    if ds != [] {
      var p := ds[..|ds| - 1];
      assert ("0" + ds)[..|ds|] == "0" + p;
      LeadingZeroValue(p);
    } else {
      assert ("0" + ds)[..0] == [];
    }
  }

  /**
    `parseFloat` reads a whole number of dollars as that many hundreds of
    hundredths, the same value as with `.00` written after it.
  */
  lemma ParseAmountWhole(ds: string)
    requires AllDigits(ds) && ds != []
    ensures AmountShape(ds) && AmountShape(ds + ".00")
    ensures ParseAmount(ds) == Cents(DecimalValue(ds) * 100)
    ensures ParseAmount(ds + ".00") == ParseAmount(ds)
  {
    var u := ds + ".00";
    RunEndUnique(ds, 0, |ds|, IsDigit);
    assert ds[..|ds|] == ds;
    assert forall k :: 0 <= k < |ds| ==> u[k] == ds[k];
    RunEndUnique(u, 0, |ds|, IsDigit);
    assert u[..|ds|] == ds;
    assert DigitValue(u[|ds| + 1]) == 0 && DigitValue(u[|ds| + 2]) == 0;
  }

  /** `parseFloat` ignores leading zeros: `025.50` and `.50` read as `25.50` and `0.50`. */
  lemma ParseAmountLeadingZero(t: string)
    requires AmountShape(t) && t != []
    ensures AmountShape("0" + t)
    ensures ParseAmount("0" + t) == ParseAmount(t)
  {
    var n := RunEnd(t, 0, IsDigit);
    var u := "0" + t;
    assert forall k :: 1 <= k < |u| ==> u[k] == t[k - 1];
    RunEndUnique(u, 0, n + 1, IsDigit);
    assert u[..n + 1] == "0" + t[..n];
    LeadingZeroValue(t[..n]);
  }

  /** `Number.prototype.toFixed(2)` of a value in hundredths. */
  function ToFixed2(c: nat): string {
    NatToDecimal(c / 100) + "." + [DigitChar(c % 100 / 10), DigitChar(c % 10)]
  }

  /**
    The text `toFixed(2)` prints for a value of at least zero: an integer
    part without leading zeros, a point and exactly two decimals.
  */
  predicate FixedText(t: string) {
    && AmountShape(t) && |t| >= 4 && t[|t| - 3] == '.'
    && (t[0] != '0' || t[1] == '.')
  }

  /**
    The text `toFixed(2)` prints has that shape and parses back to the value
    printed.
  */
  lemma FixedRoundTrip(c: nat)
    ensures FixedText(ToFixed2(c))
    ensures ParseAmount(ToFixed2(c)) == Cents(c)
  {
    var ds := NatToDecimal(c / 100);
    var t := ToFixed2(c);
    assert t[|ds|] == '.';
    assert t[0] == ds[0];
    RunEndUnique(t, 0, |ds|, IsDigit);
    assert t[..|ds|] == ds;
    DecimalRoundTrip(c / 100);
    assert DigitValue(t[|ds| + 1]) * 10 + DigitValue(t[|ds| + 2]) == c % 100;
  }

  /** A digit string whose first digit is not zero is worth at least one. */
  lemma {:induction false} LeadingDigitValue(ds: string)
    requires AllDigits(ds) && ds != [] && ds[0] != '0'
    ensures DecimalValue(ds) >= 1
  {
    if |ds| > 1 {
      LeadingDigitValue(ds[..|ds| - 1]);
    }
  }

  /** A digit appended to a numeral shifts its value one place. */
  lemma DecimalAppend(p: string, d: char)
    requires AllDigits(p) && IsDigit(d)
    ensures AllDigits(p + [d])
    ensures DecimalValue(p + [d]) == DecimalValue(p) * 10 + DigitValue(d)
  {
    assert (p + [d])[..|p|] == p;
  }

  /** The shortest numeral of `10m + k`, for `m` at least one, ends in the digit `k`. */
  lemma NatToDecimalStep(m: nat, k: nat)
    requires m >= 1 && k < 10
    ensures NatToDecimal(m * 10 + k) == NatToDecimal(m) + [DigitChar(k)]
  {
    assert (m * 10 + k) / 10 == m && (m * 10 + k) % 10 == k;
  }

  /** A numeral without leading zeros is the shortest numeral of its value. */
  lemma {:induction false} DecimalCanonical(ds: string)
    requires AllDigits(ds) && ds != [] && (|ds| == 1 || ds[0] != '0')
    ensures NatToDecimal(DecimalValue(ds)) == ds
  {
    var d := ds[|ds| - 1];
    assert DigitChar(DigitValue(d)) == d;
    if |ds| > 1 {
      var p := ds[..|ds| - 1];
      assert p + [d] == ds;
      DecimalAppend(p, d);
      LeadingDigitValue(p);
      DecimalCanonical(p);
      NatToDecimalStep(DecimalValue(p), DigitValue(d));
    }
  }

  /** The whole part and the two decimals of a count of hundredths. */
  lemma HundredthsDigits(w: nat, a: nat, b: nat)
    requires a < 10 && b < 10
    ensures (w * 100 + a * 10 + b) / 100 == w
    ensures (w * 100 + a * 10 + b) % 100 / 10 == a
    ensures (w * 100 + a * 10 + b) % 10 == b
  {
  }

  /**
    `toFixed(2)` prints each value as exactly one text: a text of that shape
    is the one printed for the value it parses to.
  */
  lemma FixedUnique(t: string)
    requires FixedText(t)
    ensures ParseAmount(t).Cents? && ToFixed2(ParseAmount(t).hundredths) == t
  {
    var n := |t| - 3;
    RunEndUnique(t, 0, n, IsDigit);
    var ds := t[..n];
    assert ds[0] == t[0];
    DecimalCanonical(ds);
    var w, a, b := DecimalValue(ds), DigitValue(t[n + 1]), DigitValue(t[n + 2]);
    assert ParseAmount(t) == Cents(w * 100 + a * 10 + b);
    HundredthsDigits(w, a, b);
    assert DigitChar(a) == t[n + 1] && DigitChar(b) == t[n + 2];
    assert ds + "." + [t[n + 1], t[n + 2]] == t;
  }
}

=== FILE: extract.dfy ===
/**
  `extractCopayInfo`: normalise the eligibility text, collect every
  `SERVICE[DETAILS]:$AMOUNT` match, keep the primary-care ones, score them
  on their details and print the amount of the first best one.
*/
module Extract {
  import opened Wrappers
  import opened Text
  import opened Whitespace
  import opened Scanner
  import opened Amount

  /** Service wordings that mark a primary-care line; compared case-insensitively. */
  const PrimaryCareTerms: seq<string> := [
    "Professional (Physician) Visit - Office",
    "Professional (Physician) Visit-Office",
    "PRIMARY CARE",
    "PCP",
    "Office Visit",
    "Primary care"
  ]

  /** One collected match: trimmed service, trimmed details and the parsed amount. */
  datatype Candidate = Candidate(service: string, details: string, amount: Number)

  /** What the extractor returns; `allMatches` is kept for diagnostics. */
  datatype ExtractResult = ExtractResult(copay: Option<string>, coinsurance: Option<string>, allMatches: seq<Candidate>)

  /** Group 3 of a match with its commas removed. */
  function AmountText(text: string, sp: Span): string
    requires Greedy(text, sp)
  {
    RemoveCommas(text[sp.amount..sp.end])
  }

  /** Group 3 without commas is digits with an optional two-digit fraction. */
  lemma AmountTextShape(text: string, sp: Span)
    requires Greedy(text, sp)
    ensures AmountShape(AmountText(text, sp))
  {
    var run := text[sp.amount..sp.digitsEnd];
    var frac := text[sp.digitsEnd..sp.end];
    assert text[sp.amount..sp.end] == run + frac;
    RemoveCommasAppend(run, frac);
    RemoveCommasOfRun(run);
    RemoveCommasNone(frac);
    var d := RemoveCommas(run);
    var t := AmountText(text, sp);
    assert t == d + frac;
    if frac == [] {
      RunEndUnique(t, 0, |d|, IsDigit);
    } else {
      assert t[|d|] == '.';
      RunEndUnique(t, 0, |d|, IsDigit);
    }
  }

  /** A candidate as the extractor records it: both texts trimmed, no brackets in the service, no `]` in the details. */
  predicate WellFormed(c: Candidate) {
    && Trimmed(c.service) && (forall i :: 0 <= i < |c.service| ==> NotBracket(c.service[i]))
    && Trimmed(c.details) && (forall i :: 0 <= i < |c.details| ==> NotCloseBracket(c.details[i]))
  }

  /**
    The record pushed for one match, from its three groups: the service and
    the details are their groups with the surrounding whitespace removed,
    so they stay free of the brackets the pattern excluded from them, and
    the amount is group 3 read without its commas.
  */
  function Record(service: string, details: string, amount: string): (c: Candidate)
    requires forall i :: 0 <= i < |service| ==> NotBracket(service[i])
    requires forall i :: 0 <= i < |details| ==> NotCloseBracket(details[i])
    requires AmountShape(RemoveCommas(amount))
    ensures WellFormed(c)
    ensures TrimmedFrom(c.service, service) && TrimmedFrom(c.details, details)
    ensures c.amount == ParseAmount(RemoveCommas(amount))
  {
    ServiceTrimmed(service);
    DetailsTrimmed(details);
    Candidate(Trim(service), Trim(details), ParseAmount(RemoveCommas(amount)))
  }

  /**
    The record of one greedy match of the normalised text: groups 1 and 2
    without their surrounding whitespace, and group 3's amount.
  */
  function ToCandidate(text: string, sp: Span): (c: Candidate)
    requires Greedy(text, sp)
    ensures WellFormed(c)
    ensures TrimmedFrom(c.service, text[sp.start..sp.open])
    ensures TrimmedFrom(c.details, text[sp.open + 1..sp.close])
    ensures AmountShape(AmountText(text, sp)) && c.amount == ParseAmount(AmountText(text, sp))
  {
    SliceNoBracket(text, sp.start, sp.open);
    SliceNoCloseBracket(text, sp.open + 1, sp.close);
    AmountTextShape(text, sp);
    Record(text[sp.start..sp.open], text[sp.open + 1..sp.close], text[sp.amount..sp.end])
  }

  /** The records of a list of greedy matches, one per match and in the same order. */
  function Candidates(text: string, ms: seq<Span>): (cs: seq<Candidate>)
    requires forall k :: 0 <= k < |ms| ==> Greedy(text, ms[k])
    ensures |cs| == |ms|
    ensures forall k :: 0 <= k < |ms| ==> cs[k] == ToCandidate(text, ms[k]) && WellFormed(cs[k])
  {
    seq(|ms|, k requires 0 <= k < |ms| => ToCandidate(text, ms[k]))
  }

  /** A slice of characters none of which is a bracket. */
  lemma SliceNoBracket(text: string, lo: nat, hi: nat)
    requires lo <= hi <= |text|
    requires forall k :: lo <= k < hi ==> NotBracket(text[k])
    ensures forall k :: 0 <= k < |text[lo..hi]| ==> NotBracket(text[lo..hi][k])
  {
    assert forall k :: 0 <= k < hi - lo ==> text[lo..hi][k] == text[lo + k];
  }

  /** A slice of characters none of which is `]`. */
  lemma SliceNoCloseBracket(text: string, lo: nat, hi: nat)
    requires lo <= hi <= |text|
    requires forall k :: lo <= k < hi ==> NotCloseBracket(text[k])
    ensures forall k :: 0 <= k < |text[lo..hi]| ==> NotCloseBracket(text[lo..hi][k])
  {
    assert forall k :: 0 <= k < hi - lo ==> text[lo..hi][k] == text[lo + k];
  }

  lemma ServiceTrimmed(g: string)
    requires forall k :: 0 <= k < |g| ==> NotBracket(g[k])
    ensures Trimmed(Trim(g)) && forall i :: 0 <= i < |Trim(g)| ==> NotBracket(Trim(g)[i])
    ensures TrimmedFrom(Trim(g), g)
  {
    TrimTrimmedFrom(g);
    var a, b := TrimIsSlice(g);
    SliceNoBracket(g, a, b);
  }

  lemma DetailsTrimmed(g: string)
    requires forall k :: 0 <= k < |g| ==> NotCloseBracket(g[k])
    ensures Trimmed(Trim(g)) && forall i :: 0 <= i < |Trim(g)| ==> NotCloseBracket(Trim(g)[i])
    ensures TrimmedFrom(Trim(g), g)
  {
    TrimTrimmedFrom(g);
    var a, b := TrimIsSlice(g);
    SliceNoCloseBracket(g, a, b);
  }

  /** The service names one of the primary-care wordings, ignoring case. */
  predicate IsPrimaryCare(service: string) {
    exists i :: 0 <= i < |PrimaryCareTerms| && Contains(Upper(service), Upper(PrimaryCareTerms[i]))
  }

  predicate Mentions(details: string, word: string) {
    Contains(Upper(details), word)
  }

  /**
    The details score: 10 for PREFERRED, otherwise 5 for PARTICIPATING, and
    5 more for PRIMARY CARE.
  */
  function Score(details: string): (r: nat)
    ensures r == 0 || r == 5 || r == 10 || r == 15
  {
    (if Mentions(details, "PREFERRED") then 10 else if Mentions(details, "PARTICIPATING") then 5 else 0)
    + (if Mentions(details, "PRIMARY CARE") then 5 else 0)
  }

  /**
    What a score says about the details: 10 or more exactly when PREFERRED is
    there or PARTICIPATING and PRIMARY CARE both are, 0 exactly when none of
    the three words is there, and PREFERRED alone already outranks any
    details without it or PRIMARY CARE. Step by step, with the other words
    alike: PRIMARY CARE adds 5 on top of the tier, PREFERRED ranks 5 above
    PARTICIPATING, and PARTICIPATING ranks 5 above neither.
  */
  lemma ScoreMeaning(details: string, other: string)
    ensures Score(details) >= 10 <==>
              Mentions(details, "PREFERRED") || (Mentions(details, "PARTICIPATING") && Mentions(details, "PRIMARY CARE"))
    ensures Score(details) == 0 <==>
              !Mentions(details, "PREFERRED") && !Mentions(details, "PARTICIPATING") && !Mentions(details, "PRIMARY CARE")
    ensures Mentions(details, "PREFERRED") && !Mentions(other, "PREFERRED") && !Mentions(other, "PRIMARY CARE") ==>
              Score(other) < Score(details)
    ensures && (Mentions(details, "PREFERRED") <==> Mentions(other, "PREFERRED"))
            && (Mentions(details, "PARTICIPATING") <==> Mentions(other, "PARTICIPATING"))
            && Mentions(details, "PRIMARY CARE") && !Mentions(other, "PRIMARY CARE") ==>
              Score(details) == Score(other) + 5
    ensures && (Mentions(details, "PRIMARY CARE") <==> Mentions(other, "PRIMARY CARE"))
            && Mentions(details, "PREFERRED") && !Mentions(other, "PREFERRED") && Mentions(other, "PARTICIPATING") ==>
              Score(details) == Score(other) + 5
    ensures && (Mentions(details, "PRIMARY CARE") <==> Mentions(other, "PRIMARY CARE"))
            && !Mentions(details, "PREFERRED") && !Mentions(other, "PREFERRED")
            && Mentions(details, "PARTICIPATING") && !Mentions(other, "PARTICIPATING") ==>
              Score(details) == Score(other) + 5
  {
  }

  predicate Qualifies(c: Candidate) {
    IsPrimaryCare(c.service)
  }

  /** `k` is the first primary-care candidate with the highest score. */
  predicate FirstBest(cs: seq<Candidate>, k: int) {
    && 0 <= k < |cs| && Qualifies(cs[k])
    && (forall j :: 0 <= j < |cs| && Qualifies(cs[j]) ==> Score(cs[j].details) <= Score(cs[k].details))
    && (forall j :: 0 <= j < k && Qualifies(cs[j]) ==> Score(cs[j].details) < Score(cs[k].details))
  }

  /** There is at most one first best candidate. */
  lemma FirstBestUnique(cs: seq<Candidate>, k: int)
    requires FirstBest(cs, k)
    ensures forall j :: FirstBest(cs, j) ==> j == k
  {
  }

  /**
    What the selection loop knows before index `i`: with no winner held (score
    `-1`) nothing so far qualified; otherwise the winner is the first best of
    the prefix and `bestScore` is its score.
  */
  predicate Scanned(cs: seq<Candidate>, i: nat, best: Option<nat>, bestScore: int)
    requires i <= |cs|
  {
    && (best.None? ==> bestScore == -1 && forall j :: 0 <= j < i ==> !Qualifies(cs[j]))
    && (best.Some? ==> best.value < i && FirstBest(cs[..i], best.value) && bestScore == Score(cs[best.value].details))
  }

  /** The candidate at `i` takes over when it qualifies and beats the winner. */
  lemma TakeOver(cs: seq<Candidate>, i: nat, best: Option<nat>, bestScore: int)
    requires i < |cs| && Scanned(cs, i, best, bestScore) && Qualifies(cs[i])
    requires Score(cs[i].details) > bestScore || (Score(cs[i].details) == bestScore && best.None?)
    ensures Scanned(cs, i + 1, Some(i), Score(cs[i].details))
  {
    assert cs[..i + 1] == cs[..i] + [cs[i]];
    assert forall j :: 0 <= j < i ==> cs[..i + 1][j] == cs[..i][j];
  }

  /** Otherwise the winner so far stays. */
  lemma KeepBest(cs: seq<Candidate>, i: nat, best: Option<nat>, bestScore: int)
    requires i < |cs| && Scanned(cs, i, best, bestScore)
    requires !(Qualifies(cs[i]) && (Score(cs[i].details) > bestScore || (Score(cs[i].details) == bestScore && best.None?)))
    ensures Scanned(cs, i + 1, best, bestScore)
  {
    assert cs[..i + 1] == cs[..i] + [cs[i]];
    assert forall j :: 0 <= j < i ==> cs[..i + 1][j] == cs[..i][j];
  }

  /**
    The selection loop from index `i`, holding the winner so far and its
    score (`-1` before any): a candidate replaces the winner only when it
    scores strictly higher, or ties while no winner is held.
  */
  function SelectFrom(cs: seq<Candidate>, i: nat, best: Option<nat>, bestScore: int): (r: Option<nat>)
    requires i <= |cs| && Scanned(cs, i, best, bestScore)
    ensures r.None? ==> forall j :: 0 <= j < |cs| ==> !Qualifies(cs[j])
    ensures r.Some? ==> FirstBest(cs, r.value)
    decreases |cs| - i
  {
    if i == |cs| then
      assert cs[..i] == cs;
      best
    else
      var sc := Score(cs[i].details);
      if Qualifies(cs[i]) && (sc > bestScore || (sc == bestScore && best.None?)) then
        TakeOver(cs, i, best, bestScore);
        SelectFrom(cs, i + 1, Some(i), sc)
      else
        KeepBest(cs, i, best, bestScore);
        SelectFrom(cs, i + 1, best, bestScore)
  }

  /**
    The winner of the scoring loop: none exactly when no candidate is a
    primary-care line, otherwise the first one with the maximum score.
  */
  function Select(cs: seq<Candidate>): (r: Option<nat>)
    ensures r.None? <==> forall j :: 0 <= j < |cs| ==> !Qualifies(cs[j])
    ensures r.Some? ==> FirstBest(cs, r.value)
  {
    SelectFrom(cs, 0, None, -1)
  }

  /**
    `copay ? copay.toFixed(2) : null`: no winner, a NaN amount and a zero
    amount all give null.
  */
  function FormatCopay(a: Option<Number>): (r: Option<string>)
    ensures r.Some? <==> a.Some? && a.value.Cents? && a.value.hundredths > 0
    ensures r.Some? ==> FixedText(r.value) && ParseAmount(r.value) == a.value
  {
    match a
    case Some(Cents(c)) =>
      if c == 0 then None else FixedRoundTrip(c); Some(ToFixed2(c))
    case _ => None
  }

  /** The candidates of every match in the normalised text, in text order. */
  function AllMatches(pdfText: string): seq<Candidate> {
    var n := Normalize(pdfText);
    ScanFromOrdered(n, 0);
    Candidates(n, Scan(n))
  }

  /**
    The copay chosen from the collected candidates: null unless some
    candidate is a primary-care line; otherwise the amount of the first best
    one printed with two decimals, null when that amount is zero or NaN.
  */
  function CopayOf(cs: seq<Candidate>): (copay: Option<string>)
    ensures (forall k :: 0 <= k < |cs| ==> !Qualifies(cs[k])) ==> copay == None
    ensures forall k :: FirstBest(cs, k) ==>
              (copay.Some? <==> cs[k].amount.Cents? && cs[k].amount.hundredths > 0)
    ensures copay.Some? ==> FixedText(copay.value)
    ensures forall k :: FirstBest(cs, k) && copay.Some? ==> ParseAmount(copay.value) == cs[k].amount
  {
    var best := Select(cs);
    if best.Some? then
      var copay := FormatCopay(Some(cs[best.value].amount));
      WinnerDecides(cs, best.value, copay);
      copay
    else
      FormatCopay(None)
  }

  lemma WinnerDecides(cs: seq<Candidate>, b: int, copay: Option<string>)
    requires FirstBest(cs, b)
    requires copay.Some? <==> cs[b].amount.Cents? && cs[b].amount.hundredths > 0
    requires copay.Some? ==> AmountShape(copay.value) && ParseAmount(copay.value) == cs[b].amount
    ensures forall k :: FirstBest(cs, k) ==> (copay.Some? <==> cs[k].amount.Cents? && cs[k].amount.hundredths > 0)
    ensures forall k :: FirstBest(cs, k) && copay.Some? ==> ParseAmount(copay.value) == cs[k].amount
  {
    forall k | FirstBest(cs, k)
      ensures k == b
    {
      FirstBestUnique(cs, b);
    }
  }

  /** `extractCopayInfo`; coinsurance is never extracted. */
  function ExtractCopayInfo(pdfText: string): (r: ExtractResult)
    ensures r.coinsurance == None
    ensures r.copay.Some? ==> FixedText(r.copay.value)
  {
    var cs := AllMatches(pdfText);
    ExtractResult(CopayOf(cs), None, cs)
  }

  /**
    Every collected match is a well-formed record of a greedy match of the
    normalised text, and the matches follow the text order.
  */
  lemma AllMatchesShape(pdfText: string)
    ensures var n := Normalize(pdfText);
            var ms := Scan(n);
            && |AllMatches(pdfText)| == |ms|
            && OrderedMatches(n, 0, ms)
            && forall k :: 0 <= k < |ms| ==>
                 && WellFormed(AllMatches(pdfText)[k])
                 && AllMatches(pdfText)[k] == ToCandidate(n, ms[k])
  {
    var n := Normalize(pdfText);
    ScanFromOrdered(n, 0);
    assert AllMatches(pdfText) == Candidates(n, Scan(n));
  }

  /**
    The extractor reports the matches of the normalised text and chooses the
    copay of the first best primary-care match among them: null when there is
    none or its amount is zero or NaN, otherwise the amount with two decimals.
  */
  lemma ExtractChoosesFirstBest(pdfText: string)
    ensures var r := ExtractCopayInfo(pdfText);
            && r.allMatches == AllMatches(pdfText)
            && ((forall k :: 0 <= k < |r.allMatches| ==> !Qualifies(r.allMatches[k])) ==> r.copay == None)
            && (forall k :: FirstBest(r.allMatches, k) ==>
                  (r.copay.Some? <==> r.allMatches[k].amount.Cents? && r.allMatches[k].amount.hundredths > 0))
            && (r.copay.Some? ==> FixedText(r.copay.value))
            && (forall k :: FirstBest(r.allMatches, k) && r.copay.Some? ==> ParseAmount(r.copay.value) == r.allMatches[k].amount)
  {
    var cs := AllMatches(pdfText);
    var r := ExtractCopayInfo(pdfText);
    assert r == ExtractResult(CopayOf(cs), None, cs);
  }
}

=== FILE: pdf.dfy ===
/**
  Fetching the eligibility PDF: the `%PDF-` signature check and the retry
  loop around the download. The download, the timeout race and the pdf.js
  text extraction are foreign calls; each attempt's result is an input.
*/
module Pdf {
  import opened Wrappers

  newtype uint8 = x: int | 0 <= x < 256

  /** The file header `%PDF-` (ISO 32000-1:2008, section 7.5.2) as bytes. */
  const PdfMagic: seq<uint8> := [0x25, 0x50, 0x44, 0x46, 0x2D]

  /** The signature bytes are the ASCII codes of `%PDF-`. */
  lemma MagicIsHeaderText()
    ensures |PdfMagic| == |"%PDF-"|
    ensures forall i :: 0 <= i < 5 ==> PdfMagic[i] as int == "%PDF-"[i] as int
  {
  }

  /** `isPdfBytes`: at least five bytes, the first five being the signature `%PDF-` (`MagicIsHeaderText`). */
  function IsPdfBytes(u8: seq<uint8>): (r: bool)
    ensures r <==> |u8| >= 5 && u8[..5] == PdfMagic
  {
    |u8| >= 5 && u8[0] == 0x25 && u8[1] == 0x50 && u8[2] == 0x44 && u8[3] == 0x46 && u8[4] == 0x2D
  }

  /**
    The loop checks only `buf.slice(0, 5)`: the verdict on those five bytes
    is the verdict on the whole buffer, whatever follows them.
  */
  lemma HeadDecides(buf: seq<uint8>, tail: seq<uint8>)
    ensures IsPdfBytes(buf[..if |buf| < 5 then |buf| else 5]) == IsPdfBytes(buf)
    ensures IsPdfBytes(buf) ==> IsPdfBytes(buf + tail)
  {
    if |buf| >= 5 {
      assert (buf + tail)[..5] == buf[..5];
    }
  }

  /**
    One download attempt as the environment answers it: the request failed
    or timed out, or it delivered bytes, which pdf.js turned into text or not.
  */
  datatype Attempt = RequestFailed | Received(bytes: seq<uint8>, decoded: Option<string>)

  /** An attempt that returns: PDF bytes that pdf.js could read. */
  predicate Succeeds(a: Attempt) {
    a.Received? && IsPdfBytes(a.bytes) && a.decoded.Some?
  }

  /**
    `fetchPdfTextRobust`: up to `attempts` tries, answered in order by
    `outcomes`; it returns the text of the first successful try, or none
    when every try failed, and sleeps only between tries.
  */
  method FetchPdfTextRobust(attempts: int, outcomes: seq<Attempt>) returns (text: Option<string>, tries: nat, sleeps: nat)
    requires attempts <= |outcomes|
    ensures text.Some? <==> exists i :: 0 <= i < attempts && Succeeds(outcomes[i])
    ensures text.Some? ==> 1 <= tries <= attempts && Succeeds(outcomes[tries - 1]) && text == outcomes[tries - 1].decoded
    ensures tries <= (if attempts > 0 then attempts else 0)
    ensures forall i :: 0 <= i < tries - 1 ==> !Succeeds(outcomes[i])
    ensures text.None? ==> tries == (if attempts > 0 then attempts else 0)
    ensures sleeps == (if tries > 0 then tries - 1 else 0)
  {
    var i := 1;
    text := None;
    tries := 0;
    sleeps := 0;
    while i <= attempts
      invariant 1 <= i && (attempts >= 1 ==> i <= attempts + 1) && (attempts < 1 ==> i == 1)
      invariant tries == i - 1
      invariant i <= attempts ==> sleeps == i - 1
      invariant i > attempts && i > 1 ==> sleeps == i - 2
      invariant i == 1 ==> sleeps == 0
      invariant forall j :: 0 <= j < i - 1 ==> !Succeeds(outcomes[j])
    {
      tries := i;
      var a := outcomes[i - 1];
      if Succeeds(a) {
        text := a.decoded;
        return;
      }
      if i < attempts {
        sleeps := sleeps + 1;
      }
      i := i + 1;
    }
  }
}

=== FILE: scanner.dfy ===
/**
  The global scan `/([^[\]]+)\[([^\]]+)\]:\$?([\d,]+(?:\.\d{2})?)/g` run
  with `exec` over the normalised text: a match is a service name, a
  bracketed detail text, a colon, an optional dollar sign and an amount.
*/
module Scanner {
  import opened Wrappers
  import opened Text

  predicate NotBracket(c: char) {
    c != '[' && c != ']'
  }

  predicate NotCloseBracket(c: char) {
    c != ']'
  }

  predicate DigitOrComma(c: char) {
    IsDigit(c) || c == ','
  }

  /**
    Where one match lies in the text. Group 1 is `text[start..open]`, `[` is
    at `open`, group 2 is `text[open + 1..close]`, `]` is at `close` and `:`
    right after it; group 3 is `text[amount..end]`, whose run of digits and
    commas stops at `digitsEnd`.
  */
  datatype Span = Span(start: nat, open: nat, close: nat, amount: nat, digitsEnd: nat, end: nat)

  predicate HasFraction(text: string, i: nat) {
    i + 3 <= |text| && text[i] == '.' && IsDigit(text[i + 1]) && IsDigit(text[i + 2])
  }

  /**
    The language of the pattern: `sp` cuts `text[sp.start..sp.end]` into the
    pieces the regular expression allows, without any greediness.
  */
  predicate Parses(text: string, sp: Span) {
    && sp.start < sp.open && sp.open + 1 < sp.close
    && sp.close + 2 <= sp.amount < sp.digitsEnd <= sp.end <= |text|
    && (forall k :: sp.start <= k < sp.open ==> NotBracket(text[k]))
    && text[sp.open] == '['
    && (forall k :: sp.open < k < sp.close ==> NotCloseBracket(text[k]))
    && text[sp.close] == ']'
    && text[sp.close + 1] == ':'
    && (sp.amount == sp.close + 2 || (sp.amount == sp.close + 3 && text[sp.close + 2] == '$'))
    && (forall k :: sp.amount <= k < sp.digitsEnd ==> DigitOrComma(text[k]))
    && (sp.end == sp.digitsEnd || (sp.end == sp.digitsEnd + 3 && HasFraction(text, sp.digitsEnd)))
  }

  /**
    The cut a backtracking matcher reports: the digit-and-comma run is as
    long as possible and the fraction is taken whenever it is there.
  */
  predicate Greedy(text: string, sp: Span) {
    && Parses(text, sp)
    && (sp.digitsEnd == |text| || !DigitOrComma(text[sp.digitsEnd]))
    && (sp.end == sp.digitsEnd ==> !HasFraction(text, sp.digitsEnd))
  }

  /** The pattern anchored at position `i`, each quantifier greedy. */
  function MatchAt(text: string, i: nat): (r: Option<Span>)
    ensures r.Some? ==> r.value.start == i && Greedy(text, r.value)
  {
    if i >= |text| then None
    else
      var open := RunEnd(text, i, NotBracket);
      if open == i || open == |text| || text[open] != '[' then None
      else
        var close := RunEnd(text, open + 1, NotCloseBracket);
        if close == open + 1 || close >= |text| then None
        else TailAt(text, i, open, close)
  }

  /**
    The rest of the pattern once `[details]` has been read: `:`, an optional
    `$`, the digit-and-comma run and the optional two-digit fraction.
  */
  function TailAt(text: string, i: nat, open: nat, close: nat): (r: Option<Span>)
    requires close < |text|
    ensures r.Some? ==> r.value.start == i && r.value.open == open && r.value.close == close
    ensures r.Some? ==> r.value.close + 2 <= r.value.amount < r.value.digitsEnd <= r.value.end <= |text| && text[close + 1] == ':'
    ensures r.Some? ==> r.value.amount == close + 2 || (r.value.amount == close + 3 && text[close + 2] == '$')
    ensures r.Some? ==> forall k :: r.value.amount <= k < r.value.digitsEnd ==> DigitOrComma(text[k])
    ensures r.Some? ==> r.value.digitsEnd == |text| || !DigitOrComma(text[r.value.digitsEnd])
    ensures r.Some? ==> if HasFraction(text, r.value.digitsEnd) then r.value.end == r.value.digitsEnd + 3 else r.value.end == r.value.digitsEnd
  {
    if close + 1 >= |text| || text[close + 1] != ':' then None
    else
      var amount := if close + 2 < |text| && text[close + 2] == '$' then close + 3 else close + 2;
      var digitsEnd := RunEnd(text, amount, DigitOrComma);
      if digitsEnd == amount then None
      else
        var end := if HasFraction(text, digitsEnd) then digitsEnd + 3 else digitsEnd;
        Some(Span(i, open, close, amount, digitsEnd, end))
  }

  /**
    The anchored matcher misses nothing: wherever the pattern can cut the
    text from `sp.start`, it reports a match there, and a greedy cut is
    exactly the one it reports.
  */
  lemma MatchAtComplete(text: string, sp: Span)
    requires Parses(text, sp)
    ensures MatchAt(text, sp.start).Some?
    ensures Greedy(text, sp) ==> MatchAt(text, sp.start) == Some(sp)
  {
    MatchAtFinds(text, sp);
    if Greedy(text, sp) {
      MatchAtGreedy(text, sp);
    }
  }

  lemma MatchAtFinds(text: string, sp: Span)
    requires Parses(text, sp)
    ensures MatchAt(text, sp.start).Some?
  {
    RunEndUnique(text, sp.start, sp.open, NotBracket);
    RunEndUnique(text, sp.open + 1, sp.close, NotCloseBracket);
    MatchAtUnfold(text, sp.start, sp.open, sp.close);
    TailFinds(text, sp);
  }

  /** Once the two bracketed groups are read, the anchored match is the tail's. */
  lemma MatchAtUnfold(text: string, i: nat, open: nat, close: nat)
    requires i < open < |text| && text[open] == '['
    requires open == RunEnd(text, i, NotBracket)
    requires open + 1 < close < |text|
    requires close == RunEnd(text, open + 1, NotCloseBracket)
    ensures MatchAt(text, i) == TailAt(text, i, open, close)
  {
  }

  lemma TailFinds(text: string, sp: Span)
    requires Parses(text, sp)
    ensures TailAt(text, sp.start, sp.open, sp.close).Some?
  {
    AmountStart(text, sp);
    RunEndAtLeast(text, sp.amount, sp.digitsEnd, DigitOrComma);
  }

  lemma MatchAtGreedy(text: string, sp: Span)
    requires Greedy(text, sp)
    ensures MatchAt(text, sp.start) == Some(sp)
  {
    RunEndUnique(text, sp.start, sp.open, NotBracket);
    RunEndUnique(text, sp.open + 1, sp.close, NotCloseBracket);
    MatchAtUnfold(text, sp.start, sp.open, sp.close);
    TailGreedy(text, sp);
  }

  lemma TailGreedy(text: string, sp: Span)
    requires Greedy(text, sp)
    ensures TailAt(text, sp.start, sp.open, sp.close) == Some(sp)
  {
    RunEndUnique(text, sp.amount, sp.digitsEnd, DigitOrComma);
    AmountStart(text, sp);
  }

  /** Where group 3 starts is decided by the character after `]:`. */
  lemma AmountStart(text: string, sp: Span)
    requires Parses(text, sp)
    ensures sp.amount == if sp.close + 2 < |text| && text[sp.close + 2] == '$' then sp.close + 3 else sp.close + 2
  {
    if sp.amount == sp.close + 2 {
      assert DigitOrComma(text[sp.amount]);
    }
  }

  lemma NoParseAt(text: string, i: nat)
    requires MatchAt(text, i).None?
    ensures forall sp :: Parses(text, sp) ==> sp.start != i
  {
    forall sp | Parses(text, sp)
      ensures sp.start != i
    {
      MatchAtComplete(text, sp);
    }
  }

  /**
    `pattern.exec(text)` with `lastIndex == from`: the leftmost match that
    starts at or after `from`.
  */
  function Exec(text: string, from: nat): (r: Option<Span>)
    ensures r.Some? ==> from <= r.value.start && Greedy(text, r.value)
    ensures r.Some? ==> forall sp :: Parses(text, sp) && from <= sp.start ==> r.value.start <= sp.start
    ensures r.None? ==> forall sp :: Parses(text, sp) ==> sp.start < from
    decreases |text| - from
  {
    if from >= |text| then None
    else if MatchAt(text, from).Some? then MatchAt(text, from)
    else NoParseAt(text, from); Exec(text, from + 1)
  }

  /**
    The `while ((match = pattern.exec(text)) !== null)` loop from
    `lastIndex == from`: every match, each search resuming where the
    previous match ended.
  */
  function ScanFrom(text: string, from: nat): seq<Span>
    decreases |text| - from
  {
    match Exec(text, from)
    case None => []
    case Some(sp) => [sp] + ScanFrom(text, sp.end)
  }

  /** All matches in the text, as the extractor's loop collects them. */
  function Scan(text: string): seq<Span> {
    ScanFrom(text, 0)
  }

  /** Greedy, non-empty matches, all starting at or after `from`, in text order and without overlap. */
  predicate OrderedMatches(text: string, from: nat, ms: seq<Span>) {
    && (forall k :: 0 <= k < |ms| ==> from <= ms[k].start < ms[k].end && Greedy(text, ms[k]))
    && (forall k :: 0 <= k < |ms| - 1 ==> ms[k].end <= ms[k + 1].start)
  }

  lemma OrderedCons(text: string, from: nat, e: Span, rest: seq<Span>)
    requires from <= e.start < e.end && Greedy(text, e)
    requires OrderedMatches(text, e.end, rest)
    ensures OrderedMatches(text, from, [e] + rest)
  {
    var ms := [e] + rest;
    forall k | 0 <= k < |ms|
      ensures from <= ms[k].start < ms[k].end && Greedy(text, ms[k])
    {
      if k > 0 {
        assert ms[k] == rest[k - 1];
      }
    }
    forall k | 0 <= k < |ms| - 1
      ensures ms[k].end <= ms[k + 1].start
    {
      assert ms[k + 1] == rest[k];
      if k > 0 {
        assert ms[k] == rest[k - 1];
      }
    }
  }

  /** The scan reports greedy, non-empty matches in text order, without overlap. */
  lemma {:induction false} ScanFromOrdered(text: string, from: nat)
    ensures OrderedMatches(text, from, ScanFrom(text, from))
    decreases |text| - from
  {
    var r := Exec(text, from);
    if r.Some? {
      var e := r.value;
      ScanFromOrdered(text, e.end);
      assert ScanFrom(text, from) == [e] + ScanFrom(text, e.end);
      OrderedCons(text, from, e, ScanFrom(text, e.end));
    }
  }

  /** Every cut of the pattern that starts at or after `from` begins inside one of `ms`. */
  ghost predicate CoversParses(text: string, from: nat, ms: seq<Span>) {
    forall sp :: Parses(text, sp) && from <= sp.start ==>
      exists k :: 0 <= k < |ms| && ms[k].start <= sp.start < ms[k].end
  }

  lemma CoversCons(text: string, from: nat, e: Span, rest: seq<Span>)
    requires from <= e.start < e.end
    requires forall sp :: Parses(text, sp) && from <= sp.start ==> e.start <= sp.start
    requires CoversParses(text, e.end, rest)
    ensures CoversParses(text, from, [e] + rest)
  {
    var ms := [e] + rest;
    forall sp | Parses(text, sp) && from <= sp.start
      ensures exists k :: 0 <= k < |ms| && ms[k].start <= sp.start < ms[k].end
    {
      if sp.start < e.end {
        assert ms[0].start <= sp.start < ms[0].end;
      } else {
        var k :| 0 <= k < |rest| && rest[k].start <= sp.start < rest[k].end;
        assert ms[k + 1] == rest[k];
      }
    }
  }

  /**
    The scan misses no match: every place where the pattern could start a
    match lies inside a reported match.
  */
  lemma {:induction false} ScanFromComplete(text: string, from: nat)
    ensures CoversParses(text, from, ScanFrom(text, from))
    decreases |text| - from
  {
    var r := Exec(text, from);
    if r.Some? {
      var e := r.value;
      ScanFromComplete(text, e.end);
      assert ScanFrom(text, from) == [e] + ScanFrom(text, e.end);
      CoversCons(text, from, e, ScanFrom(text, e.end));
    }
  }
}

=== FILE: text.dfy ===
/**
  ASCII character classes and the string primitives the script borrows from
  JavaScript: `\s`, `\d`, `String.prototype.trim`, `toUpperCase` and
  `includes`. Only the ASCII part of each is modelled.
*/
module Text {

  /** JavaScript `\s` restricted to ASCII: space, tab, LF, VT, FF and CR. */
  predicate IsSpace(c: char) {
    c == ' ' || c == '\t' || c == '\n' || c == '\U{000B}' || c == '\U{000C}' || c == '\r'
  }

  predicate NotSpace(c: char) {
    !IsSpace(c)
  }

  /** JavaScript `\d`: the ASCII digits only. */
  predicate IsDigit(c: char) {
    '0' <= c <= '9'
  }

  function DigitValue(c: char): (d: nat)
    requires IsDigit(c)
    ensures d < 10
  {
    c as int - '0' as int
  }

  function DigitChar(d: nat): (c: char)
    requires d < 10
    ensures IsDigit(c) && DigitValue(c) == d
  {
    ('0' as int + d) as char
  }

  predicate AllSpace(s: string) {
    forall i :: 0 <= i < |s| ==> IsSpace(s[i])
  }

  predicate AllDigits(s: string) {
    forall i :: 0 <= i < |s| ==> IsDigit(s[i])
  }

  /**
    The end of the maximal run of characters satisfying `p` that starts at
    `i`: what a greedy `[...]*` consumes from position `i`.
  */
  function RunEnd(s: string, i: nat, p: char -> bool): (j: nat)
    requires i <= |s|
    ensures i <= j <= |s|
    ensures forall k :: i <= k < j ==> p(s[k])
    ensures j == |s| || !p(s[j])
    decreases |s| - i
  {
    if i == |s| || !p(s[i]) then i else RunEnd(s, i + 1, p)
  }

  /** A run end is determined by the run: any `j` with the two properties above is `RunEnd`. */
  lemma {:induction false} RunEndUnique(s: string, i: nat, j: nat, p: char -> bool)
    requires i <= j <= |s|
    requires forall k :: i <= k < j ==> p(s[k])
    requires j == |s| || !p(s[j])
    ensures RunEnd(s, i, p) == j
    decreases |s| - i
  {
    if i < j {
      RunEndUnique(s, i + 1, j, p);
    }
  }

  /** A run that is known to extend to `j` ends at or after `j`. */
  lemma {:induction false} RunEndAtLeast(s: string, i: nat, j: nat, p: char -> bool)
    requires i <= j <= |s|
    requires forall k :: i <= k < j ==> p(s[k])
    ensures RunEnd(s, i, p) >= j
    decreases |s| - i
  {
    if i < j {
      RunEndAtLeast(s, i + 1, j, p);
    }
  }

  /** ASCII `toUpperCase` of one character. */
  function UpperChar(c: char): char {
    if 'a' <= c <= 'z' then (c as int - 32) as char else c
  }

  /** ASCII `toUpperCase` of a string. */
  function Upper(s: string): (u: string)
    ensures |u| == |s|
  {
    seq(|s|, i requires 0 <= i < |s| => UpperChar(s[i]))
  }

  predicate OccursAt(hay: string, needle: string, i: nat) {
    i + |needle| <= |hay| && hay[i..i + |needle|] == needle
  }

  /** `hay.includes(needle)`. */
  predicate Contains(hay: string, needle: string) {
    exists i: nat | i <= |hay| :: OccursAt(hay, needle, i)
  }

  function TrimStart(s: string): (r: string)
    ensures |r| <= |s| && r == s[|s| - |r|..]
    ensures AllSpace(s[..|s| - |r|])
    ensures r == [] || !IsSpace(r[0])
  {
    if s != [] && IsSpace(s[0]) then TrimStart(s[1..]) else s
  }

  function TrimEnd(s: string): (r: string)
    ensures |r| <= |s| && r == s[..|r|]
    ensures AllSpace(s[|r|..])
    ensures r == [] || !IsSpace(r[|r| - 1])
  {
    if s != [] && IsSpace(s[|s| - 1]) then TrimEnd(s[..|s| - 1]) else s
  }

  /** Neither end of the string is whitespace. */
  predicate Trimmed(s: string) {
    s == [] || (!IsSpace(s[0]) && !IsSpace(s[|s| - 1]))
  }

  /** `String.prototype.trim`: drop the leading and the trailing whitespace. */
  function Trim(s: string): string {
    TrimEnd(TrimStart(s))
  }

  /**
    Trim removes exactly the surrounding whitespace: the result is the slice
    `s[a..b]` with only whitespace outside it and none at its two ends.
  */
  lemma TrimIsSlice(s: string) returns (a: nat, b: nat)
    ensures a <= b <= |s| && Trim(s) == s[a..b]
    ensures AllSpace(s[..a]) && AllSpace(s[b..])
    ensures Trimmed(Trim(s))
  {
    var t := TrimStart(s);
    var r := TrimEnd(t);
    a := |s| - |t|;
    b := a + |r|;
    assert t == s[a..];
    assert r == t[..|r|];
    assert t[..|r|] == s[a..b];
    assert s[b..] == t[|r|..];
  }

  /**
    `t` is `s` with its surrounding whitespace removed: a slice of `s` with
    only whitespace outside it and none at its own two ends.
  */
  predicate TrimmedFrom(t: string, s: string) {
    && Trimmed(t)
    && exists a, b :: 0 <= a <= b <= |s| && t == s[a..b] && AllSpace(s[..a]) && AllSpace(s[b..])
  }

  /** `trim()` removes the surrounding whitespace. */
  lemma TrimTrimmedFrom(s: string)
    ensures TrimmedFrom(Trim(s), s)
  {
    var a, b := TrimIsSlice(s);
  }

  /** The surrounding whitespace is removed in exactly one way: the result is `trim()`. */
  lemma TrimmedFromUnique(t: string, s: string)
    requires TrimmedFrom(t, s)
    ensures t == Trim(s)
  {
    var a, b :| 0 <= a <= b <= |s| && t == s[a..b] && AllSpace(s[..a]) && AllSpace(s[b..]);
    SliceSplit(s, a, b);
    TrimSurrounded(s[..a], t, s[b..]);
  }

  lemma SliceSplit(s: string, a: nat, b: nat)
    requires a <= b <= |s|
    ensures s[..a] + s[a..b] + s[b..] == s
  {
  }

  /** Whitespace wrapped around a string without whitespace ends is what trim removes. */
  lemma {:induction false} TrimSurrounded(x: string, j: string, y: string)
    requires AllSpace(x) && AllSpace(y)
    requires Trimmed(j)
    ensures Trim(x + j + y) == j
  {
    if j == [] {
      assert x + j + y == x + y;
      TrimStartSpaces(x + y, []);
      assert (x + y) + [] == x + y;
    } else {
      assert x + j + y == x + (j + y);
      TrimStartSpaces(x, j + y);
      TrimEndSpaces(j, y);
    }
  }

  lemma {:induction false} TrimStartSpaces(x: string, u: string)
    requires AllSpace(x)
    requires u == [] || !IsSpace(u[0])
    ensures TrimStart(x + u) == u
    decreases |x|
  {
    if x == [] {
      assert x + u == u;
    } else {
      assert (x + u)[1..] == x[1..] + u;
      TrimStartSpaces(x[1..], u);
    }
  }

  lemma {:induction false} TrimEndSpaces(u: string, y: string)
    requires AllSpace(y)
    requires u == [] || !IsSpace(u[|u| - 1])
    ensures TrimEnd(u + y) == u
    decreases |y|
  {
    if y == [] {
      assert u + y == u;
    } else {
      assert (u + y)[..|u + y| - 1] == u + y[..|y| - 1];
      TrimEndSpaces(u, y[..|y| - 1]);
    }
  }
}

=== FILE: whitespace.dfy ===
/**
  Whitespace normalisation applied to the eligibility text before it is
  scanned: `text.replace(/\s+/g, ' ').replace(/\n/g, ' ').trim()`.
*/
module Whitespace {
  import opened Text

  /** `replace(/\s+/g, ' ')`: every maximal whitespace run becomes one space. */
  function Collapse(s: string): string
    decreases |s|
  {
    if s == [] then []
    else if IsSpace(s[0]) then [' '] + Collapse(s[RunEnd(s, 0, IsSpace)..])
    else [s[0]] + Collapse(s[1..])
  }

  /** `replace(/\n/g, ' ')`. */
  function ReplaceNewlines(s: string): string {
    seq(|s|, i requires 0 <= i < |s| => if s[i] == '\n' then ' ' else s[i])
  }

  /** The normalised text handed to the scanner. */
  function Normalize(text: string): string {
    Trim(ReplaceNewlines(Collapse(text)))
  }

  /** Reference reading: the maximal whitespace-free words of `s`, in order. */
  function Words(s: string): seq<string>
    decreases |s|
  {
    var t := s[RunEnd(s, 0, IsSpace)..];
    if t == [] then []
    else
      var n := RunEnd(t, 0, NotSpace);
      [t[..n]] + Words(t[n..])
  }

  /** Words separated by single spaces. */
  function JoinSpaced(ws: seq<string>): string {
    if |ws| == 0 then []
    else if |ws| == 1 then ws[0]
    else ws[0] + " " + JoinSpaced(ws[1..])
  }

  predicate IsWord(w: string) {
    w != [] && forall i :: 0 <= i < |w| ==> NotSpace(w[i])
  }

  /**
    A normalised string: no whitespace at either end, and every whitespace
    character is a single space followed by a non-whitespace character.
  */
  predicate Canonical(r: string) {
    && (r == [] || (NotSpace(r[0]) && NotSpace(r[|r| - 1])))
    && forall i :: 0 <= i < |r| && IsSpace(r[i]) ==> r[i] == ' ' && i + 1 < |r| && NotSpace(r[i + 1])
  }

  predicate SpaceOrEmpty(x: string) {
    x == [] || x == " "
  }

  lemma {:induction false} WordsAreWords(s: string)
    ensures forall i :: 0 <= i < |Words(s)| ==> IsWord(Words(s)[i])
    decreases |s|
  {
    var t := s[RunEnd(s, 0, IsSpace)..];
    if t != [] {
      var n := RunEnd(t, 0, NotSpace);
      WordsAreWords(t[n..]);
    }
  }

  /** Collapsing copies a leading word unchanged. */
  lemma {:induction false} CollapseWord(t: string)
    requires t != [] && NotSpace(t[0])
    ensures Collapse(t) == t[..RunEnd(t, 0, NotSpace)] + Collapse(t[RunEnd(t, 0, NotSpace)..])
    decreases |t|
  {
    var n := RunEnd(t, 0, NotSpace);
    var t' := t[1..];
    if t' == [] || IsSpace(t'[0]) {
      CollapseLetter(t);
    } else {
      RunEndAtLeast(t, 0, 2, NotSpace);
      var m := n - 1;
      assert forall k :: 0 <= k < m ==> t'[k] == t[k + 1];
      RunEndUnique(t', 0, m, NotSpace);
      CollapseWord(t');
      assert Collapse(t) == [t[0]] + Collapse(t');
      assert t[..n] == [t[0]] + t'[..m];
      assert t[n..] == t'[m..];
      calc {
        Collapse(t);
        [t[0]] + (t'[..m] + Collapse(t'[m..]));
        ([t[0]] + t'[..m]) + Collapse(t'[m..]);
      }
    }
  }

  /** The one-letter word case of CollapseWord. */
  lemma CollapseLetter(t: string)
    requires t != [] && NotSpace(t[0])
    requires |t| == 1 || IsSpace(t[1])
    ensures Collapse(t) == t[..RunEnd(t, 0, NotSpace)] + Collapse(t[RunEnd(t, 0, NotSpace)..])
  {
    RunEndUnique(t, 0, 1, NotSpace);
    assert t[..1] == [t[0]];
  }

  /** Collapsing replaces a leading whitespace run by one space. */
  lemma CollapseLead(s: string)
    ensures Collapse(s) == (if s != [] && IsSpace(s[0]) then " " else "") + Collapse(s[RunEnd(s, 0, IsSpace)..])
  {
    if s == [] || !IsSpace(s[0]) {
      RunEndUnique(s, 0, 0, IsSpace);
      assert s[0..] == s;
    }
  }

  /** One step of Words: the first word, then the words of the rest. */
  lemma WordsStep(s: string)
    requires s[RunEnd(s, 0, IsSpace)..] != []
    ensures var t := s[RunEnd(s, 0, IsSpace)..];
            var n := RunEnd(t, 0, NotSpace);
            Words(s) == [t[..n]] + Words(t[n..])
  {
  }

  lemma JoinCons(w: string, ws: seq<string>)
    ensures JoinSpaced([w] + ws) == if ws == [] then w else w + " " + JoinSpaced(ws)
  {
    assert ([w] + ws)[1..] == ws;
  }

  /** The bookkeeping step of CollapseShape, stated over plain sequences. */
  lemma ShapeStep(c: string, x: string, w: string, cr: string, ws: seq<string>, x': string, y': string)
    requires c == x + w + cr
    requires cr == x' + JoinSpaced(ws) + y'
    requires SpaceOrEmpty(x') && SpaceOrEmpty(y') && (ws == [] ==> y' == [])
    requires ws != [] ==> x' == " "
    ensures ws == [] ==> c == x + JoinSpaced([w] + ws) + (x' + y')
    ensures ws != [] ==> c == x + JoinSpaced([w] + ws) + y'
  {
    JoinCons(w, ws);
    if ws == [] {
      assert cr == x' + y';
    } else {
      var j := JoinSpaced(ws);
      assert x + w + (" " + j + y') == x + (w + " " + j) + y';
    }
  }

  /**
    Collapse keeps the words, separated by single spaces, with at most one
    space before them and one after them.
  */
  lemma {:induction false} CollapseShape(s: string) returns (x: string, y: string)
    ensures x == (if s != [] && IsSpace(s[0]) then " " else "")
    ensures SpaceOrEmpty(y) && (Words(s) == [] ==> y == [])
    ensures Collapse(s) == x + JoinSpaced(Words(s)) + y
    decreases |s|
  {
    var k := RunEnd(s, 0, IsSpace);
    var t := s[k..];
    x := if s != [] && IsSpace(s[0]) then " " else "";
    CollapseLead(s);
    if t == [] {
      y := [];
      assert Words(s) == [];
    } else {
      var n := RunEnd(t, 0, NotSpace);
      var w := t[..n];
      var r := t[n..];
      CollapseWord(t);
      WordsStep(s);
      var x', y' := CollapseShape(r);
      assert Words(r) != [] ==> r != [] && IsSpace(r[0]);
      ShapeStep(Collapse(s), x, w, Collapse(r), Words(r), x', y');
      y := if Words(r) == [] then x' + y' else y';
    }
  }

  lemma {:induction false} JoinCanonical(ws: seq<string>)
    requires forall i :: 0 <= i < |ws| ==> IsWord(ws[i])
    ensures Canonical(JoinSpaced(ws))
    ensures JoinSpaced(ws) == [] <==> ws == []
    ensures ws != [] ==> JoinSpaced(ws)[0] == ws[0][0]
  {
    if |ws| >= 2 {
      var w := ws[0];
      var j := JoinSpaced(ws[1..]);
      JoinCanonical(ws[1..]);
      var r := w + " " + j;
      assert r == JoinSpaced(ws);
      assert forall i :: 0 <= i < |w| ==> r[i] == w[i];
      forall i | 0 <= i < |r| && IsSpace(r[i])
        ensures r[i] == ' ' && i + 1 < |r| && NotSpace(r[i + 1])
      {
        if i == |w| {
          assert r[i + 1] == j[0];
        } else if i > |w| {
          assert r[i] == j[i - |w| - 1];
          if i + 1 < |r| {
            assert r[i + 1] == j[i - |w|];
          }
        }
      }
    }
  }

  lemma NoNewlineUnchanged(s: string)
    requires forall i :: 0 <= i < |s| ==> s[i] != '\n'
    ensures ReplaceNewlines(s) == s
  {
  }

  lemma NoNewlineAround(x: string, j: string, y: string)
    requires SpaceOrEmpty(x) && SpaceOrEmpty(y) && Canonical(j)
    ensures forall i :: 0 <= i < |x + j + y| ==> (x + j + y)[i] != '\n'
  {
    var c := x + j + y;
    forall i | 0 <= i < |c|
      ensures c[i] != '\n'
    {
      if i < |x| {
        assert c[i] == ' ';
      } else if i < |x| + |j| {
        assert c[i] == j[i - |x|];
      } else {
        assert c[i] == y[i - |x| - |j|];
      }
    }
  }

  /** The normalised text is the words of the input joined by single spaces. */
  lemma NormalizeIsJoinedWords(text: string)
    ensures Normalize(text) == JoinSpaced(Words(text))
    ensures Canonical(Normalize(text))
  {
    var x, y := CollapseShape(text);
    var j := JoinSpaced(Words(text));
    WordsAreWords(text);
    JoinCanonical(Words(text));
    NoNewlineAround(x, j, y);
    NoNewlineUnchanged(x + j + y);
    TrimSurrounded(x, j, y);
  }

  lemma WordsLeadingWord(w: string, u: string)
    requires IsWord(w)
    requires u == [] || IsSpace(u[0])
    ensures Words(w + u) == [w] + Words(u)
  {
    var t := w + u;
    RunEndUnique(t, 0, 0, IsSpace);
    assert t[0..] == t;
    RunEndUnique(t, 0, |w|, NotSpace);
    assert t[..|w|] == w && t[|w|..] == u;
    WordsStep(t);
  }

  lemma WordsLeadingSpace(u: string)
    requires u != [] && NotSpace(u[0])
    ensures Words(" " + u) == Words(u)
  {
    var t := " " + u;
    RunEndUnique(t, 0, 1, IsSpace);
    assert t[1..] == u;
    RunEndUnique(u, 0, 0, IsSpace);
    assert u[0..] == u;
  }

  /** Splitting joined words gives the words back. */
  lemma {:induction false} WordsOfJoin(ws: seq<string>)
    requires forall i :: 0 <= i < |ws| ==> IsWord(ws[i])
    ensures Words(JoinSpaced(ws)) == ws
  {
    if ws == [] {
      RunEndUnique([], 0, 0, IsSpace);
    } else if |ws| == 1 {
      WordsLeadingWord(ws[0], []);
      assert ws[0] + [] == ws[0];
      RunEndUnique([], 0, 0, IsSpace);
    } else {
      var w := ws[0];
      var rest := JoinSpaced(ws[1..]);
      JoinCanonical(ws[1..]);
      assert JoinSpaced(ws) == w + (" " + rest);
      WordsLeadingWord(w, " " + rest);
      WordsLeadingSpace(rest);
      WordsOfJoin(ws[1..]);
    }
  }

  /** Normalising twice is normalising once. */
  lemma NormalizeIdempotent(text: string)
    ensures Normalize(Normalize(text)) == Normalize(text)
  {
    NormalizeIsJoinedWords(text);
    WordsAreWords(text);
    WordsOfJoin(Words(text));
    NormalizeIsJoinedWords(Normalize(text));
  }
}

=== FILE: workflow.dfy ===
/**
  The copay workflow that survives page reloads: three values kept in the
  userscript store, four steps, and the resume entry point that runs on
  every page load. The page elements a step looks for and the navigation it
  triggers are inputs: an awaited element is found or its wait timed out,
  and the details link and the save button are found at once or the page
  function that replaces them exists, or not.
*/
module Workflow {
  import opened Wrappers
  import Extract

  /** A stored value: JSON `null` or a string. */
  datatype Value = Null | Str(s: string)

  /** The userscript key-value store (`GM_getValue` / `GM_setValue`). */
  type Store = map<string, Value>

  const Namespace := "tmCopayAutofill"
  const StateKey := Namespace + ":state"
  const CopayKey := Namespace + ":copay"
  const CoinsuranceKey := Namespace + ":coinsurance"

  /** The three keys are different strings: they differ after the namespace. */
  lemma KeysDistinct()
    ensures StateKey != CopayKey && StateKey != CoinsuranceKey && CopayKey != CoinsuranceKey
  {
    assert StateKey[16] == 's' && CopayKey[16] == 'c' && CoinsuranceKey[16] == 'c';
    assert CopayKey[18] == 'p' && CoinsuranceKey[18] == 'i';
  }

  const Idle := "idle"
  const NavigateToDetails := "navigate_to_details"
  const OpenInsuranceEditor := "open_insurance_editor"
  const FillCopay := "fill_copay"

  /** `GM_getValue(key, default)`. */
  function GetValue(st: Store, key: string, default: Value): Value {
    if key in st then st[key] else default
  }

  function GetState(st: Store): Value {
    GetValue(st, StateKey, Str(Idle))
  }

  function GetCopay(st: Store): Value {
    GetValue(st, CopayKey, Null)
  }

  function GetCoinsurance(st: Store): Value {
    GetValue(st, CoinsuranceKey, Null)
  }

  function SetState(st: Store, s: string): Store {
    st[StateKey := Str(s)]
  }

  function SetCopay(st: Store, v: Value): Store {
    st[CopayKey := v]
  }

  function SetCoinsurance(st: Store, v: Value): Store {
    st[CoinsuranceKey := v]
  }

  /** `clearState`: state back to idle, copay and coinsurance to null. */
  function ClearState(st: Store): Store {
    st[StateKey := Str(Idle)][CopayKey := Null][CoinsuranceKey := Null]
  }

  /** All three workflow values read as their reset values. */
  predicate Cleared(st: Store) {
    GetState(st) == Str(Idle) && GetCopay(st) == Null && GetCoinsurance(st) == Null
  }

  /** JavaScript truthiness of a stored value: a non-empty string. */
  predicate Truthy(v: Value) {
    v.Str? && v.s != []
  }

  function FromOption(o: Option<string>): Value {
    match o
    case Some(s) => Str(s)
    case None => Null
  }

  /**
    The store reads back what was written, each setter touches only its own
    key, and clearing resets exactly the three workflow keys.
  */
  lemma StoreLaws(st: Store, s: string, v: Value, key: string)
    ensures GetState(SetState(st, s)) == Str(s)
    ensures GetCopay(SetCopay(st, v)) == v
    ensures GetCoinsurance(SetCoinsurance(st, v)) == v
    ensures GetCopay(SetState(st, s)) == GetCopay(st) && GetCoinsurance(SetState(st, s)) == GetCoinsurance(st)
    ensures GetState(SetCopay(st, v)) == GetState(st) && GetCoinsurance(SetCopay(st, v)) == GetCoinsurance(st)
    ensures GetState(SetCoinsurance(st, v)) == GetState(st) && GetCopay(SetCoinsurance(st, v)) == GetCopay(st)
    ensures Cleared(ClearState(st))
    ensures key != StateKey && key != CopayKey && key != CoinsuranceKey ==>
              (key in ClearState(st) <==> key in st) && (key in st ==> ClearState(st)[key] == st[key])
  {
    KeysDistinct();
  }

  /** What step 1 stores before leaving the eligibility page. */
  function Save(st: Store, copay: string, coinsurance: Value): Store {
    SetState(SetCoinsurance(SetCopay(st, Str(copay)), coinsurance), NavigateToDetails)
  }

  /** The saved values read back, and clearing forgets them again. */
  lemma SaveReads(st: Store, copay: string, coinsurance: Value)
    ensures GetState(Save(st, copay, coinsurance)) == Str(NavigateToDetails)
    ensures GetCopay(Save(st, copay, coinsurance)) == Str(copay)
    ensures GetCoinsurance(Save(st, copay, coinsurance)) == coinsurance
    ensures ClearState(Save(st, copay, coinsurance)) == ClearState(st)
  {
    KeysDistinct();
    var a := ClearState(Save(st, copay, coinsurance));
    var b := ClearState(st);
    assert a.Keys == b.Keys;
    forall k | k in a.Keys
      ensures a[k] == b[k]
    {
    }
  }

  /** Why a step gave up; each one clears the store. */
  datatype Failure =
    | PdfUnavailable
    | NoCopayFound
    | DetailsLinkMissing
    | InsuranceTabMissing
    | EditButtonMissing
    | NoCopayInState
    | CopayFieldMissing
    | SaveButtonMissing

  datatype Outcome = NoAction | Advanced | Completed(filled: string) | Failed(reason: Failure)

  datatype StepResult = StepResult(store: Store, outcome: Outcome)

  /**
    What the current page offers a step. `pdfText` is the eligibility text,
    or none when the PDF link never appeared, its URL could not be read or
    every download failed. `insuranceTab`, `editButton` and `copayField`
    say whether an awaited element appeared before its wait timed out;
    `detailsLink` and `saveButton` say whether the page function exists or
    else the element is found at once, without a wait. `saveReloads` says whether the save reloaded
    the page during the one-second pause before step 4 clears the store, so
    that the clear never ran.
  */
  datatype Page = Page(
    pdfText: Option<string>,
    detailsLink: bool,
    insuranceTab: bool,
    editButton: bool,
    copayField: bool,
    saveButton: bool,
    saveReloads: bool)

  /** The workflow's next state after a successful step, `idle` at the end. */
  function Successor(state: string): string {
    if state == NavigateToDetails then OpenInsuranceEditor
    else if state == OpenInsuranceEditor then FillCopay
    else Idle
  }

  /**
    `step1_extractCopay`: extract the copay; store it with the coinsurance
    and move to `navigate_to_details`, or clear everything on any failure.
  */
  function Step1(st: Store, page: Page): (r: StepResult)
    ensures r.outcome == Advanced || r.outcome.Failed?
    ensures r.outcome.Failed? ==> r.store == ClearState(st)
    ensures r.outcome == Advanced <==>
              page.pdfText.Some? && Extract.ExtractCopayInfo(page.pdfText.value).copay.Some? && page.detailsLink
    ensures r.outcome == Advanced ==>
              && GetState(r.store) == Str(NavigateToDetails)
              && GetCopay(r.store) == Str(Extract.ExtractCopayInfo(page.pdfText.value).copay.value)
              && GetCoinsurance(r.store) == Null
  {
    match page.pdfText
    case None => StepResult(ClearState(st), Failed(PdfUnavailable))
    case Some(text) =>
      var info := Extract.ExtractCopayInfo(text);
      if info.copay.None? || info.copay.value == [] then
        StepResult(ClearState(st), Failed(NoCopayFound))
      else
        var saved := Save(st, info.copay.value, FromOption(info.coinsurance));
        SaveReads(st, info.copay.value, FromOption(info.coinsurance));
        if page.detailsLink then StepResult(saved, Advanced)
        else StepResult(ClearState(saved), Failed(DetailsLinkMissing))
  }

  /** `step2_navigateToInsurance`: on to `open_insurance_editor`, or clear. */
  function Step2(st: Store, page: Page): StepResult {
    if page.insuranceTab then StepResult(SetState(st, OpenInsuranceEditor), Advanced)
    else StepResult(ClearState(st), Failed(InsuranceTabMissing))
  }

  /** `step3_openEditor`: on to `fill_copay`, or clear. */
  function Step3(st: Store, page: Page): StepResult {
    if page.editButton then StepResult(SetState(st, FillCopay), Advanced)
    else StepResult(ClearState(st), Failed(EditButtonMissing))
  }

  /**
    `step4_fillAndSave`: write the stored copay into the form and save;
    the store is cleared whether it succeeds or not, unless the save
    reloaded the page before the clear was reached.
  */
  function Step4(st: Store, page: Page): StepResult {
    var copay := GetCopay(st);
    if !Truthy(copay) then StepResult(ClearState(st), Failed(NoCopayInState))
    else if !page.copayField then StepResult(ClearState(st), Failed(CopayFieldMissing))
    else if !page.saveButton then StepResult(ClearState(st), Failed(SaveButtonMissing))
    else if page.saveReloads then StepResult(st, Completed(copay.s))
    else StepResult(ClearState(st), Completed(copay.s))
  }

  datatype StepName = InsuranceTabStep | EditorStep | FillAndSaveStep

  /**
    The dispatch of `autoResumeWorkflow`: each of the three active states
    names exactly one step; `idle`, an empty or null state and any other
    string name none.
  */
  function Dispatch(state: Value): (r: Option<StepName>)
    ensures r == Some(InsuranceTabStep) <==> state == Str(NavigateToDetails)
    ensures r == Some(EditorStep) <==> state == Str(OpenInsuranceEditor)
    ensures r == Some(FillAndSaveStep) <==> state == Str(FillCopay)
  {
    if state == Str(Idle) || !Truthy(state) then None
    else if state == Str(NavigateToDetails) then Some(InsuranceTabStep)
    else if state == Str(OpenInsuranceEditor) then Some(EditorStep)
    else if state == Str(FillCopay) then Some(FillAndSaveStep)
    else None
  }

  /** `autoResumeWorkflow`: run the step the stored state names, if any. */
  function Resume(st: Store, page: Page): StepResult {
    match Dispatch(GetState(st))
    case None => StepResult(st, NoAction)
    case Some(InsuranceTabStep) => Step2(st, page)
    case Some(EditorStep) => Step3(st, page)
    case Some(FillAndSaveStep) => Step4(st, page)
  }

  predicate Active(state: Value) {
    state == Str(NavigateToDetails) || state == Str(OpenInsuranceEditor) || state == Str(FillCopay)
  }

  /**
    The outcome of a resume: nothing happens unless the state is active;
    otherwise a success moves the state one place along
    `navigate_to_details`, `open_insurance_editor`, `fill_copay`, `idle`
    and keeps the stored copay, and a failure resets all three keys.
    An active state always leads to a step, so every step that does not
    advance or fill has failed and cleared the store. Steps 2 and 3 advance
    exactly when their element is there; step 4 never advances, fills
    exactly when a non-empty copay is stored and the field and save button
    are there, aborts and clears when no copay is stored, and after a fill
    clears the store unless the save reloaded the page first.
  */
  lemma ResumeSteps(st: Store, page: Page)
    ensures !Active(GetState(st)) <==> Resume(st, page) == StepResult(st, NoAction)
    ensures Resume(st, page).outcome == Advanced ==>
              && Active(GetState(st))
              && GetState(Resume(st, page).store) == Str(Successor(GetState(st).s))
              && GetCopay(Resume(st, page).store) == GetCopay(st)
              && GetCoinsurance(Resume(st, page).store) == GetCoinsurance(st)
    ensures Resume(st, page).outcome.Failed? ==> Resume(st, page).store == ClearState(st)
    ensures Resume(st, page).outcome.Completed? ==>
              && GetState(st) == Str(FillCopay)
              && Resume(st, page).outcome.filled == GetCopay(st).s
              && Resume(st, page).store == (if page.saveReloads then st else ClearState(st))
    ensures GetState(st) == Str(NavigateToDetails) ==>
              (Resume(st, page).outcome == Advanced <==> page.insuranceTab)
    ensures GetState(st) == Str(OpenInsuranceEditor) ==>
              (Resume(st, page).outcome == Advanced <==> page.editButton)
    ensures GetState(st) == Str(FillCopay) ==>
              (Resume(st, page).outcome.Completed? <==> Truthy(GetCopay(st)) && page.copayField && page.saveButton)
    ensures GetState(st) == Str(FillCopay) && !Truthy(GetCopay(st)) ==>
              Resume(st, page) == StepResult(ClearState(st), Failed(NoCopayInState))
    ensures Active(GetState(st)) ==> Resume(st, page).outcome != NoAction
    ensures GetState(st) == Str(FillCopay) ==> Resume(st, page).outcome != Advanced
  {
    KeysDistinct();
  }

  /** A resume with an idle, empty, null or unknown state changes nothing. */
  lemma ResumeIgnoresInactive(st: Store, page: Page, s: string)
    requires GetState(st) == Str(s) || GetState(st) == Null
    requires s != NavigateToDetails && s != OpenInsuranceEditor && s != FillCopay
    ensures Resume(st, page) == StepResult(st, NoAction)
  {
  }

  /** Whenever the workflow is active a non-empty copay is stored. */
  predicate Consistent(st: Store) {
    Active(GetState(st)) ==> Truthy(GetCopay(st))
  }

  /** The reset state is not an active one. */
  lemma IdleInactive()
    ensures !Active(Str(Idle))
  {
    assert |Idle| == 4;
  }

  /** Step 1 only enters the workflow with a copay in store. */
  lemma Step1Consistent(st: Store, page: Page)
    ensures Consistent(Step1(st, page).store)
  {
    var r := Step1(st, page);
    KeysDistinct();
    IdleInactive();
    if r.outcome == Advanced {
      assert Truthy(GetCopay(r.store));
    } else {
      assert Cleared(r.store);
    }
  }

  /** Resuming keeps the store consistent. */
  lemma ResumeConsistent(st: Store, page: Page)
    requires Consistent(st)
    ensures Consistent(Resume(st, page).store)
  {
    var r := Resume(st, page);
    ResumeSteps(st, page);
    KeysDistinct();
    IdleInactive();
    if r.outcome == Advanced {
      assert Truthy(GetCopay(r.store));
    } else if r.outcome.Failed? || (r.outcome.Completed? && !page.saveReloads) {
      assert Cleared(r.store);
    }
  }

  /**
    In a consistent store `fill_copay` never aborts for want of a copay: with
    the field and the save button there it completes with the stored copay,
    and clears the store unless the save reloaded the page first.
  */
  lemma FillCompletes(st: Store, page: Page)
    requires Consistent(st) && GetState(st) == Str(FillCopay)
    requires page.copayField && page.saveButton
    ensures Resume(st, page) ==
              StepResult(if page.saveReloads then st else ClearState(st), Completed(GetCopay(st).s))
  {
  }

  /**
    A save that reloads the page before the clear leaves `fill_copay` and
    the copay stored, so the next load fills and saves the same copay again.
  */
  lemma ReloadedFillRepeats(st: Store, page: Page, next: Page)
    requires GetState(st) == Str(FillCopay) && Truthy(GetCopay(st))
    requires page.copayField && page.saveButton && page.saveReloads
    requires next.copayField && next.saveButton
    ensures Resume(st, page).store == st
    ensures Resume(Resume(st, page).store, next).outcome == Completed(GetCopay(st).s)
  {
  }

  /**
    Once step 1 has stored a copay and `navigate_to_details`, three resumes on
    pages where everything is found fill exactly that copay and leave the
    store cleared, unless the save reloaded the page before the clear.
  */
  lemma ResumeChain(s1: Store, c: string, p2: Page, p3: Page, p4: Page)
    requires GetState(s1) == Str(NavigateToDetails) && GetCopay(s1) == Str(c) && c != []
    requires p2.insuranceTab && p3.editButton && p4.copayField && p4.saveButton
    ensures var s2 := Resume(s1, p2).store;
            var s3 := Resume(s2, p3).store;
            && Resume(s1, p2).outcome == Advanced
            && Resume(s2, p3).outcome == Advanced
            && Resume(s3, p4).outcome == Completed(c)
            && (if p4.saveReloads then Resume(s3, p4).store == s3 else Cleared(Resume(s3, p4).store))
  {
    ResumeSteps(s1, p2);
    var s2 := Resume(s1, p2).store;
    assert Resume(s1, p2) == Step2(s1, p2);
    assert GetState(s2) == Str(OpenInsuranceEditor) && GetCopay(s2) == Str(c);
    ResumeSteps(s2, p3);
    var s3 := Resume(s2, p3).store;
    assert Resume(s2, p3) == Step3(s2, p3);
    assert GetState(s3) == Str(FillCopay) && GetCopay(s3) == Str(c);
    FillCompletes(s3, p4);
    StoreLaws(s3, Idle, Null, StateKey);
  }

  /**
    A whole run: step 1 on the eligibility page and three resumes on pages
    where everything is found fill in exactly the extracted copay and leave
    the store cleared, unless the save reloaded the page before the clear.
  */
  lemma HappyPath(st: Store, p1: Page, p2: Page, p3: Page, p4: Page)
    requires p1.pdfText.Some? && Extract.ExtractCopayInfo(p1.pdfText.value).copay.Some? && p1.detailsLink
    requires p2.insuranceTab && p3.editButton && p4.copayField && p4.saveButton
    ensures var s1 := Step1(st, p1).store;
            var s2 := Resume(s1, p2).store;
            var s3 := Resume(s2, p3).store;
            && Resume(s1, p2).outcome == Advanced
            && Resume(s2, p3).outcome == Advanced
            && Resume(s3, p4).outcome == Completed(Extract.ExtractCopayInfo(p1.pdfText.value).copay.value)
            && (if p4.saveReloads then Resume(s3, p4).store == s3 else Cleared(Resume(s3, p4).store))
  {
    var c := Extract.ExtractCopayInfo(p1.pdfText.value).copay.value;
    ResumeChain(Step1(st, p1).store, c, p2, p3, p4);
  }
}

=== FILE: wrappers.dfy ===
/** The optional value used wherever the script yields `null`. */
module Wrappers {

  datatype Option<+T> = None | Some(value: T)
}
